=== FILE: README.md ===
# Plan dataset sampling model

A Dafny model of the product-selection rule of the CLIK plan datasets
(`_PlanBaseDataset` in `data/dataset.py`): the constructor's argument checks
and column selection, and `sample_prods`, which picks one row, `n` rows or the
whole group from the rows of one plan ("plan" is a promotion; its group is
the metadata rows that share a `plan_id`).

- `ordering.dfy` (module `Ordering`) holds the sequence helpers. These are a
  descending sort by a real key (the model of `sort_values(ascending=False)`),
  the maximum of a key, the rows tied at the maximum, a filter, and
  distinctness of an identifying projection.
- `rows.dfy` (module `Rows`) holds a product row. A row has the index label it
  carries in the frame passed to `sample_prods` and its value in the target
  column. Every caller with `n > 1` first resets the group's index
  (`reset_index(drop=True)`, data/dataset.py:338, 389, 504), so the labels
  are the positions 0, 1, … of the group. That is why `UniqueIds(plan)`, the
  precondition of `SampleProperties.WeightedGroupIsDistinct` and the
  condition for distinct labels in
  `SampleProperties.ConstructedRandomGroupIsSorted`, holds at each such call. A
  weighted row adds the jittered `weight` column.
- `plan_dataset.dfy` (module `PlanDataset`) holds the constructor. It runs the
  argument checks one after another, with one error per failing check. On success it
  keeps the selected columns and builds the per-plan index and the unique
  plan ids.
- `sampler.dfy` (module `Sampler`) holds `sample_prods`, branch by branch.
- `sample_properties.dfy` (module `SampleProperties`) holds properties that
  relate several calls, the constructor, or the group size to the draws.

Every random call enters as an explicit parameter: a `Draws` record. It
carries the jitter of each row, the positions the first `sample` returned,
the candidate the final `sample(1)` picked, and the positions of the
negative draw. `DrawsFit` says, branch by branch, what the library guarantees
about these values:

- positions are distinct and in range (a draw without replacement);
- a pick among tied rows names one of the tied rows;
- the jitter lies in `[0, 1e-8)`;
- the library raises on a negative weight, so a weighted draw that returns had no negative weight;
- a row of weight 0 is never drawn.

The model then proves what the code does with whatever values were drawn.

pandas `sort_values` does not promise a stable order for rows with equal
keys. The model sorts with a concrete insertion sort (`Ordering.SortBy`). It
proves that any two sorted arrangements of the same rows have the same
sequence of keys (`Ordering.SortedPermutationsShareKeys`). So every claim
about targets holds however the library breaks ties.

The weighted branches draw without replacement: 7 rows for a single sample
and 5 for the positive of a group. A weighted single sample of a group with
fewer than 7 rows therefore raises inside the library, even though a group
of 5 or 6 rows can serve a weighted group sample with a small `n`. The model
follows the code: for such a group no draws fit
(`SampleProperties.WeightedSingleNeedsSevenRows`). Likewise a weighted group
needs at least 5 rows and more than `n`
(`SampleProperties.WeightedGroupNeedsMoreRows`).

## Model

| member | source | states |
|---|---|---|
| PlanDataset.Create | data/dataset.py:82-108 | The constructor fails with exactly one error, and each error happens exactly when the earlier checks pass and its own fails. The checks are, in order: target column missing, unknown sampling method, a plan attribute not a column (defaults used when the argument is `None`), a product attribute not a column, and a key column `id`/`prod_id`/`plan_id` missing. On success the dataset keeps the named target, method and attribute lists. Its columns are exactly the key columns, the target and the attributes, all taken from the metadata. The per-plan index has one entry for every plan id of the table. The plan ids list each of them once, in order of first appearance in the table, and every group is non-empty and holds each row of that plan as many times as the table does. |
| PlanDataset.ParseMethod | data/dataset.py:83-87 | A method is accepted if and only if it is spelled `weighted`, `random` or `sequential`, and the accepted method's spelling is the input. |
| PlanDataset.MethodNameRoundTrip | data/dataset.py:83-87 | Every method's spelling parses back to that method. |
| PlanDataset.GroupByPlan | data/dataset.py:107 | The per-plan index has one entry for each plan id occurring in the table. Each entry is non-empty and holds every row the table has under that plan, with as many copies as the table has. |
| PlanDataset.UniquePlanIds | data/dataset.py:108 | The unique plan ids contain exactly the plan ids of the table, each once. They are in order of first appearance: each listed plan id occurs in the table before any row of a plan id listed after it. |
| Ordering.SortBy | data/dataset.py:166 | The sort returns a permutation of its input (same multiset, same length) ordered non-increasing by the key. |
| Ordering.SortedPermutationsShareKeys | data/dataset.py:166 | Two sorted permutations of one sequence have the same key at every position: the tie order of the sort never changes the targets. |
| Ordering.TiesAtMax | data/dataset.py:184-186 | The selection `df[df[col] == df[col].max()]` is non-empty and holds exactly the rows whose key equals the largest key. |
| Sampler.SampleProds | data/dataset.py:165-243 | `n == 0` and `n < -1` return nothing and `n == 1` returns one row. Every returned row is a row of the group. `n == -1`, and `n > 1` on a group of exactly `n` rows, return the whole group as a permutation sorted non-increasing by target. Any other `n > 1` returns `min(n, len(plan))` rows for `sequential` and `n` rows otherwise. |
| Sampler.SampleOne | data/dataset.py:169-196 | A single sample is a row of the group. For `random` it is the drawn row. For `sequential` no row of the group scores higher. For `weighted` it is one of the 7 drawn rows and no drawn row has a larger jittered weight. |
| Sampler.SampleGroup | data/dataset.py:198-243 | For `n > 1`, a group of exactly `n` rows is returned whole, as a permutation sorted non-increasing by target, whatever the method. Otherwise the result has `min(n, len(plan))` rows for `sequential` and `n` rows for the other methods, all of them rows of the group. |
| Sampler.DrawArgmax | data/dataset.py:175-187 | Drawing `count` rows weighted by jittered target, keeping the heaviest and picking among ties gives one of the drawn rows, with its jittered weight, and no drawn row is heavier. |
| Sampler.TopDrawIffTie | data/dataset.py:184-187 | A drawn row survives the keep-max filter `prod[prod["weight"] == prod["weight"].max()]` if and only if no drawn row is heavier. So the row the final `sample(1)` returns from the survivors is exactly a top draw, which is how the draws record its choice. |
| Sampler.NegativeTargetHasNoDraws | data/dataset.py:175-183 | A group with a row whose target is at most `-1e-8` has a negative weight, on which the weighted draw raises, so no draws of a weighted argmax exist for it. |
| Sampler.DrawArgmaxSurvivesFilter | data/dataset.py:220-222 | The positive chosen from the drawn rows is one of the rows the keep-max filter keeps. |
| Sampler.Jitter | data/dataset.py:175-177 | The weight column adds to each row's target its own jitter, so each weight lies in `[score, score + 1e-8)`. |
| Sampler.InverseWeights | data/dataset.py:227 | The negative-draw weights are the largest remaining weight minus each row's weight, one per remaining row, and never negative. |
| Sampler.Remaining | data/dataset.py:224 | `plan.drop(label)` keeps exactly the rows whose label differs from the positive's, each as many times as the group has it, and no row with the positive's label. |
| Sampler.NegativesAreLighter | data/dataset.py:225-228 | Every row the inverse-weight draw returns is a remaining row strictly lighter than the heaviest remaining row. |
| Sampler.Negatives | data/dataset.py:224-228 | There are `n - 1` negatives. Each is a row of the weighted group without the positive's label, and each is strictly lighter than some other non-positive row. |
| Sampler.Combine | data/dataset.py:229-231 | Concatenating the positive and the negatives and sorting by weight yields exactly the positive and the negatives, as a multiset, ordered non-increasing by weight. |
| Sampler.WeightedGroup | data/dataset.py:212-231 | The weighted group has `n` rows of the group, ordered non-increasing by weight, and is as a multiset the positive plus the negatives. |
| Sampler.WeightedGroupRows | data/dataset.py:212-232 | With the weight column dropped, the weighted group has `n` rows, all rows of the group. |
| Sampler.RandomGroup | data/dataset.py:203-210 | The random group is a permutation of the drawn rows. It is sorted by target when the target column is present, and in draw order otherwise. |
| Sampler.PrefixIsTop | data/dataset.py:235-238 | The head of a target-sorted frame is sorted, is part of the frame, and no row left out scores higher than a row kept. |
| Sampler.SequentialGroup | data/dataset.py:234-238 | The sequential group has `min(n, len(plan))` rows of the group, sorted by target, and no row left out scores higher than any row kept. |
| Sampler.GroupFitsFacts | data/dataset.py:219-228 | The weighted group's draws are five distinct positions of the group and `n - 1` distinct positions of the remaining rows. There are fewer remaining rows than group rows. |
| SampleProperties.SequentialGroupIsSortedPrefix | data/dataset.py:234-238 | The sequential group's targets are those of the first `min(n, len(plan))` rows of any target-sorted arrangement of the group. |
| SampleProperties.WholeGroupScoresAreDetermined | data/dataset.py:165-167 | When the whole group is returned sorted (`n == -1`, or exactly `n > 1` rows), its targets agree position by position with any other sorted arrangement of the group. |
| SampleProperties.SequentialSingleIsUniqueMax | data/dataset.py:189-191 | With one strictly top-scoring row, the sequential single sample is that row, whatever the tie pick. |
| SampleProperties.DrawNeedsEnoughRows | data/dataset.py:181-183 | A draw without replacement returns no more positions than there are rows. |
| SampleProperties.WeightedSingleNeedsSevenRows | data/dataset.py:181-183 | The weighted single sample needs a group of at least 7 rows. |
| SampleProperties.RandomGroupNeedsMoreRows | data/dataset.py:204 | A random group of `n` rows from a group of size other than `n` needs more than `n` rows. |
| SampleProperties.WeightedGroupNeedsMoreRows | data/dataset.py:219-228 | A weighted group of `n` rows from a group of size other than `n` needs at least 5 rows and more than `n`. |
| SampleProperties.ConstructedRandomGroupIsSorted | data/dataset.py:101-104 | For a dataset the constructor accepted, the target column is always kept, so a random group of `n` rows is the drawn rows sorted by target (never the draw-order branch). It has `n` rows, with distinct labels when the group's labels are distinct. |
| SampleProperties.CombineKeepsDistinct | data/dataset.py:224-231 | The positive together with negatives drawn from the rows without its label has distinct labels, both as concatenated and after the weight sort. |
| SampleProperties.WeightedGroupRowsDistinct | data/dataset.py:212-232 | From a group with distinct labels, the weighted group has distinct labels and contains the positive. |
| SampleProperties.WeightedGroupIsDistinct | data/dataset.py:212-232 | A weighted `sample_prods` call with `n > 1` on a group with distinct labels returns the weight-sorted frame without its weight column: `n` rows with distinct labels, the positive among them. |

## Left out

- `verify_meta_data` (lines 134-151) is left out because it checks image files on disk. It drops rows from `meta` but not from the per-plan index built at line 107, so that index can still hold rows whose image is missing. Its warning counts rows with the subclass's `__len__`, which for the discrimination datasets counts plans.
- Image loading, image augmentation, text preprocessing and tensor stacking are left out. They are calls into OpenCV, albumentations and torch with no logic of their own.
- The six subclasses' `__getitem__` and `__len__` are left out. They only assemble dictionaries around `sample_prods`.
- The probability distributions of `DataFrame.sample` are left out. Draws are parameters, and the model proves only what holds for every draw the library can return.
- The jitter's floating-point arithmetic is left out. The weight is modelled as an exact real `score + noise` with `0 <= noise < 1e-8`.
- The inverse-weight negative draw can fail when too few remaining rows have non-zero weight. For example, all remaining rows may share the top weight, so every inverse weight is 0. The model takes as a precondition (`GroupFits`) that the library returned a draw; it does not model the exception.
- The `plan["weight"] = ...` assignment (lines 175 and 214) writes into the caller's group frame. The model treats `sample_prods` as a pure function of the group, so this side effect and any sharing between workers are left out.
- The `raise NotImplementedError` branches (lines 193-194 and 240-241) are left out. The constructor accepts only the three methods, which `Method` has as its only values.
- `.squeeze()` turns a one-row frame into a series; the model returns the row itself.
- `ignore_index=True` and `reset_index(drop=True)` renumber the returned frame. Returned rows keep their original labels in the model; the labels of the returned frame are not modelled.
- The column order `sorted(set(necessary_columns))` (line 104) is left out. The model keeps the set of columns, and the sampler never reads their order.
- Ordering.SortBy: pandas does not specify how its default sort orders tied rows. The model uses one fixed insertion sort. Every claim about the targets of a sorted result is stated so that it holds for any tie order (`Ordering.SortedPermutationsShareKeys`, `SampleProperties.SequentialGroupIsSortedPrefix`).
- Negative targets: a weighted draw over a group with a target at or below `-1e-8` raises inside the library. The model does not return that exception; such a group has no draws that fit (`Sampler.NegativeTargetHasNoDraws`).
- Targets are exact reals. Missing (NaN) targets are left out: pandas skips them in `max()` (line 190), sorts them last (lines 166, 200, 206, 235) and treats them as weight 0 in `sample`.

=== FILE: ordering.dfy ===
/** Sequence helpers the sampler is built from: a descending sort by a
    real-valued key (the model of a dataframe's `sort_values(ascending=False)`),
    the maximum of a key, a filter, and distinctness of an identifying
    projection, together with the facts about them the sampler relies on. */
module Ordering {

  /** The keys of `s`, position by position. */
  function Keys<T>(s: seq<T>, key: T -> real): (ks: seq<real>)
    ensures |ks| == |s|
    ensures forall i :: 0 <= i < |s| ==> ks[i] == key(s[i])
  {
    seq(|s|, i requires 0 <= i < |s| => key(s[i]))
  }

  /** `s` is ordered non-increasing by `key`. */
  predicate SortedBy<T>(s: seq<T>, key: T -> real) {
    forall i, j :: 0 <= i < j < |s| ==> key(s[i]) >= key(s[j])
  }

  /** No two positions of `s` carry the same identifier `f`. */
  predicate DistinctBy<T>(s: seq<T>, f: T -> int) {
    forall i, j :: 0 <= i < |s| && 0 <= j < |s| && i != j ==> f(s[i]) != f(s[j])
  }

  /** Inserts `x` into the sorted `t` in front of the first element whose key
      is strictly smaller. */
  function Insert<T(!new)>(x: T, t: seq<T>, key: T -> real): (r: seq<T>)
    requires SortedBy(t, key)
    ensures |r| == |t| + 1
    ensures forall y :: y in r <==> y == x || y in t
    ensures SortedBy(r, key)
    ensures multiset(r) == multiset(t) + multiset{x}
  {
    if |t| == 0 || key(x) >= key(t[0]) then
      [x] + t
    else
      assert t == [t[0]] + t[1..];
      SortedTail(t, key);
      var r' := Insert(x, t[1..], key);
      SortedCons(t[0], r', key);
      [t[0]] + r'
  }

  /** A descending sort by `key`: a permutation of `s`, ordered non-increasing. */
  function SortBy<T(!new)>(s: seq<T>, key: T -> real): (r: seq<T>)
    ensures |r| == |s|
    ensures forall y :: y in r <==> y in s
    ensures SortedBy(r, key)
    ensures multiset(r) == multiset(s)
  {
    if |s| == 0 then
      []
    else
      assert s == [s[0]] + s[1..];
      Insert(s[0], SortBy(s[1..], key), key)
  }

  /** The largest key in a non-empty sequence: a bound on every key that some
      element attains. */
  function MaxKey<T>(s: seq<T>, key: T -> real): (m: real)
    requires |s| > 0
    ensures forall i :: 0 <= i < |s| ==> key(s[i]) <= m
    ensures exists i :: 0 <= i < |s| && key(s[i]) == m
  {
    if |s| == 1 then
      key(s[0])
    else
      var m' := MaxKey(s[1..], key);
      assert forall i :: 1 <= i < |s| ==> s[i] == s[1..][i - 1];
      if key(s[0]) >= m' then key(s[0]) else m'
  }

  /** The elements of `s` satisfying `p`, in their original order. */
  function Filter<T(!new)>(s: seq<T>, p: T -> bool): (r: seq<T>)
    ensures |r| <= |s|
    ensures forall x :: x in r <==> x in s && p(x)
    ensures (exists x :: x in s && !p(x)) ==> |r| < |s|
    ensures forall x :: multiset(r)[x] == if p(x) then multiset(s)[x] else 0
  {
    if |s| == 0 then
      []
    else
      assert s == [s[0]] + s[1..];
      (if p(s[0]) then [s[0]] else []) + Filter(s[1..], p)
  }

  /** The elements of `s` whose key equals the largest key of `s`: the
      `df[df[col] == df[col].max()]` selection. */
  function TiesAtMax<T(!new)>(s: seq<T>, key: T -> real): (r: seq<T>)
    requires |s| > 0
    ensures |r| > 0
    ensures forall x :: x in r <==> x in s && key(x) == MaxKey(s, key)
  {
    var m := MaxKey(s, key);
    var r := Filter(s, x => key(x) == m);
    assert exists i :: 0 <= i < |s| && s[i] in r;
    r
  }

  /** The tail of a sorted sequence is sorted and bounded by its head. */
  lemma SortedTail<T>(s: seq<T>, key: T -> real)
    requires |s| > 0 && SortedBy(s, key)
    ensures SortedBy(s[1..], key)
    ensures forall y :: y in s[1..] ==> key(y) <= key(s[0])
  {
  }

  /** An element at least as large as every element of a sorted sequence can
      go in front of it. */
  lemma SortedCons<T>(h: T, s: seq<T>, key: T -> real)
    requires SortedBy(s, key)
    requires forall y :: y in s ==> key(y) <= key(h)
    ensures SortedBy([h] + s, key)
  {
  }

  /** The tail of a sequence with distinct identifiers has distinct
      identifiers, none equal to the head's. */
  lemma DistinctTail<T>(s: seq<T>, f: T -> int)
    requires |s| > 0 && DistinctBy(s, f)
    ensures DistinctBy(s[1..], f)
    ensures forall y :: y in s[1..] ==> f(y) != f(s[0])
  {
  }

  /** Putting an element with a fresh identifier in front keeps identifiers distinct. */
  lemma DistinctCons<T>(h: T, s: seq<T>, f: T -> int)
    requires DistinctBy(s, f)
    requires forall y :: y in s ==> f(y) != f(h)
    ensures DistinctBy([h] + s, f)
  {
  }

  lemma {:induction false} FilterKeepsDistinct<T(!new)>(s: seq<T>, p: T -> bool, f: T -> int)
    requires DistinctBy(s, f)
    ensures DistinctBy(Filter(s, p), f)
  {
    if |s| > 0 {
      DistinctTail(s, f);
      FilterKeepsDistinct(s[1..], p, f);
      if p(s[0]) {
        DistinctCons(s[0], Filter(s[1..], p), f);
      } else {
        assert Filter(s, p) == Filter(s[1..], p);
      }
    }
  }

  lemma {:induction false} InsertKeepsDistinct<T(!new)>(x: T, t: seq<T>, key: T -> real, f: T -> int)
    requires SortedBy(t, key)
    requires DistinctBy(t, f)
    requires forall y :: y in t ==> f(y) != f(x)
    ensures DistinctBy(Insert(x, t, key), f)
  {
    if |t| == 0 || key(x) >= key(t[0]) {
      DistinctCons(x, t, f);
    } else {
      DistinctTail(t, f);
      SortedTail(t, key);
      InsertKeepsDistinct(x, t[1..], key, f);
      assert t[0] in t;
      DistinctCons(t[0], Insert(x, t[1..], key), f);
    }
  }

  lemma {:induction false} SortByKeepsDistinct<T(!new)>(s: seq<T>, key: T -> real, f: T -> int)
    requires DistinctBy(s, f)
    ensures DistinctBy(SortBy(s, key), f)
  {
    if |s| > 0 {
      DistinctTail(s, f);
      SortByKeepsDistinct(s[1..], key, f);
      InsertKeepsDistinct(s[0], SortBy(s[1..], key), key, f);
    }
  }

  /** Removing the head of `a` and an equal element of a permutation `b`
      leaves two permutations of each other. */
  lemma PermutationTails<T>(a: seq<T>, b: seq<T>, j: int)
    requires multiset(a) == multiset(b)
    requires |a| > 0 && 0 <= j < |b| && b[j] == a[0]
    ensures multiset(a[1..]) == multiset(b[..j] + b[j + 1..])
  {
    var l, r := b[..j], b[j + 1..];
    assert b == l + [b[j]] + r;
    assert a == [a[0]] + a[1..];
    var m, n := multiset(a[1..]), multiset(l + r);
    assert forall y :: multiset(a)[y] == m[y] + multiset{a[0]}[y];
    assert forall y :: multiset(b)[y] == multiset(l)[y] + multiset{a[0]}[y] + multiset(r)[y];
    assert forall y :: n[y] == multiset(l)[y] + multiset(r)[y];
  }

  /** In a sorted sequence, dropping an element whose key equals the first
      key leaves a sorted sequence with the same keys as dropping the first. */
  lemma DropTopTie<T>(b: seq<T>, j: int, key: T -> real)
    requires SortedBy(b, key)
    requires 0 <= j < |b| && key(b[j]) == key(b[0])
    ensures SortedBy(b[..j] + b[j + 1..], key)
    ensures Keys(b[..j] + b[j + 1..], key) == Keys(b[1..], key)
  {
  }

  /** The first elements of two sorted permutations share their key: both
      carry the largest key. */
  lemma TopKeysAgree<T>(a: seq<T>, b: seq<T>, key: T -> real)
    requires SortedBy(a, key) && SortedBy(b, key)
    requires multiset(a) == multiset(b) && |a| > 0
    ensures |b| > 0 && key(a[0]) == key(b[0])
  {
    assert a[0] in multiset(b);
    assert b[0] in multiset(a);
    var j :| 0 <= j < |b| && b[j] == a[0];
    var i :| 0 <= i < |a| && a[i] == b[0];
    assert key(a[0]) >= key(a[i]) && key(b[0]) >= key(b[j]);
  }

  lemma KeysCons<T>(a: seq<T>, b: seq<T>, key: T -> real)
    requires |a| > 0 && |b| > 0 && key(a[0]) == key(b[0])
    requires Keys(a[1..], key) == Keys(b[1..], key)
    ensures Keys(a, key) == Keys(b, key)
  {
  }

  /** However a descending sort breaks ties, the sequence of keys it produces
      is the same: any two sorted permutations of one sequence agree key by key. */
  lemma {:induction false} SortedPermutationsShareKeys<T>(a: seq<T>, b: seq<T>, key: T -> real)
    requires SortedBy(a, key) && SortedBy(b, key)
    requires multiset(a) == multiset(b)
    ensures Keys(a, key) == Keys(b, key)
  {
    if |a| == 0 {
      assert |b| == |multiset(b)| == 0;
    } else {
      TopKeysAgree(a, b, key);
      assert a[0] in multiset(b);
      var j :| 0 <= j < |b| && b[j] == a[0];
      PermutationTails(a, b, j);
      DropTopTie(b, j, key);
      SortedTail(a, key);
      SortedPermutationsShareKeys(a[1..], b[..j] + b[j + 1..], key);
      KeysCons(a, b, key);
    }
  }
}

=== FILE: plan_dataset.dfy ===
/** The constructor of the plan dataset base class: its argument checks, the
    column selection it applies to the metadata table, and the per-plan index
    (`plan_id` to the rows of that plan) every sample is drawn from. */
module PlanDataset {
  import opened Rows

  /** The three accepted values of `sampling_method`. */
  datatype Method = Weighted | Random | Sequential

  datatype Option<T> = None | Some(value: T)

  /** Why the constructor refuses its arguments. The first four are its
      assertions; `MissingKeyColumn` is the key error the column selection
      raises when `id`, `prod_id` or `plan_id` is not a column. */
  datatype CreateError =
    | MissingTarget
    | UnknownSamplingMethod
    | MissingPlanAttr
    | MissingProdAttr
    | MissingKeyColumn

  datatype Result<T> = Ok(value: T) | Err(error: CreateError)

  const DefaultPlanAttrs: seq<string> :=
    ["plan_name", "plan_startdate", "plan_cat1", "plan_cat2", "plan_kwds"]

  const DefaultProdAttrs: seq<string> :=
    ["prod_name", "prod_text", "prod_opendate", "prod_cat1", "prod_cat2",
     "prod_cat3", "prod_cat4", "prod_page_title"]

  /** Columns the column selection always keeps besides the target and the attributes. */
  const KeyColumns: seq<string> := ["id", "prod_id", "plan_id"]

  /** One row of the metadata table: the plan it belongs to and the product row. */
  datatype MetaRow = MetaRow(planId: int, row: Row)

  /** The metadata table: its column names and its rows in table order. */
  datatype Meta = Meta(columns: seq<string>, rows: seq<MetaRow>)

  /** What a successfully constructed dataset holds. */
  datatype Dataset = Dataset(
    columns: set<string>,
    target: string,
    sampling: Method,
    planAttrs: seq<string>,
    prodAttrs: seq<string>,
    groups: map<int, seq<Row>>,
    planIds: seq<int>)

  /** The spelling the constructor accepts for each method. */
  function MethodName(m: Method): string {
    match m
    case Weighted => "weighted"
    case Random => "random"
    case Sequential => "sequential"
  }

  /** Reads `sampling_method`: only the three spellings are accepted. */
  function ParseMethod(s: string): (r: Option<Method>)
    ensures r.Some? <==> s == "weighted" || s == "random" || s == "sequential"
    ensures r.Some? ==> MethodName(r.value) == s
  {
    if s == "weighted" then Some(Weighted)
    else if s == "random" then Some(Random)
    else if s == "sequential" then Some(Sequential)
    else None
  }

  /** Every method's spelling reads back as that method. */
  lemma MethodNameRoundTrip(m: Method)
    ensures ParseMethod(MethodName(m)) == Some(m)
  {
  }

  /** `set(names).issubset(columns)`. */
  predicate AllIn(names: seq<string>, columns: seq<string>) {
    forall a :: a in names ==> a in columns
  }

  /** An attribute list argument, with `None` replaced by the default list. */
  function OrDefault(attrs: Option<seq<string>>, default: seq<string>): seq<string> {
    match attrs
    case Some(a) => a
    case None => default
  }

  /** The plan ids that occur in the table. */
  function PlanIdSet(rows: seq<MetaRow>): set<int> {
    set m | m in rows :: m.planId
  }

  /** The rows of plan `p` (one group of `groupby("plan_id")`), each as many
      times as the table holds it. */
  function GroupOf(rows: seq<MetaRow>, p: int): (g: seq<Row>)
    ensures |g| <= |rows|
    ensures forall x :: x in g <==> MetaRow(p, x) in rows
    ensures forall x :: multiset(g)[x] == multiset(rows)[MetaRow(p, x)]
  {
    if |rows| == 0 then
      []
    else
      assert rows == [rows[0]] + rows[1..];
      (if rows[0].planId == p then [rows[0].row] else []) + GroupOf(rows[1..], p)
  }

  /** The per-plan index: one entry per plan id of the table, holding exactly
      the rows of that plan, and never an empty group. */
  function GroupByPlan(rows: seq<MetaRow>): (groups: map<int, seq<Row>>)
    ensures groups.Keys == PlanIdSet(rows)
    ensures forall p :: p in groups ==> |groups[p]| > 0
    ensures forall p, x :: p in groups ==> (x in groups[p] <==> MetaRow(p, x) in rows)
    ensures forall p, x :: p in groups ==> multiset(groups[p])[x] == multiset(rows)[MetaRow(p, x)]
  {
    assert forall p :: p in PlanIdSet(rows) ==> |GroupOf(rows, p)| > 0 by {
      forall p | p in PlanIdSet(rows)
        ensures |GroupOf(rows, p)| > 0
      {
        var m :| m in rows && m.planId == p;
        assert MetaRow(p, m.row) == m;
        assert m.row in GroupOf(rows, p);
      }
    }
    map p | p in PlanIdSet(rows) :: GroupOf(rows, p)
  }

  /** The distinct values of `s` in order of first appearance (`Series.unique()`):
      every value comes first in `s` after all values listed before it. */
  function UniqueInOrder(s: seq<int>): (u: seq<int>)
    ensures forall x :: x in u <==> x in s
    ensures forall i, j :: 0 <= i < j < |u| ==> u[i] != u[j]
    ensures forall i, j, k :: 0 <= i < j < |u| && 0 <= k < |s| && s[k] == u[j] ==> u[i] in s[..k]
    ensures |s| > 0 ==> |u| > 0 && u[0] == s[0]
  {
    if |s| == 0 then
      []
    else
      var init := s[..|s| - 1];
      assert s == init + [s[|s| - 1]];
      var u' := UniqueInOrder(init);
      assert forall k :: 0 <= k < |init| ==> s[..k] == init[..k];
      if s[|s| - 1] in u' then u' else u' + [s[|s| - 1]]
  }

  /** The plan ids of the table, each once, in order of first appearance:
      every plan id of the list occurs in the table before any row of the
      plan ids listed after it. */
  function UniquePlanIds(rows: seq<MetaRow>): (ids: seq<int>)
    ensures forall p :: p in ids <==> p in PlanIdSet(rows)
    ensures forall i, j :: 0 <= i < j < |ids| ==> ids[i] != ids[j]
    ensures forall i, j, k :: 0 <= i < j < |ids| && 0 <= k < |rows| && rows[k].planId == ids[j] ==>
      exists k' :: 0 <= k' < k && rows[k'].planId == ids[i]
  {
    var column := seq(|rows|, i requires 0 <= i < |rows| => rows[i].planId);
    assert forall p :: p in column <==> p in PlanIdSet(rows) by {
      forall p
        ensures p in column <==> p in PlanIdSet(rows)
      {
        if p in PlanIdSet(rows) {
          var m :| m in rows && m.planId == p;
          var i :| 0 <= i < |rows| && rows[i] == m;
          assert column[i] == p;
        }
      }
    }
    var u := UniqueInOrder(column);
    assert forall i, j, k :: 0 <= i < j < |u| && 0 <= k < |rows| && rows[k].planId == u[j] ==>
      exists k' :: 0 <= k' < k && rows[k'].planId == u[i] by {
      forall i, j, k | 0 <= i < j < |u| && 0 <= k < |rows| && rows[k].planId == u[j]
        ensures exists k' :: 0 <= k' < k && rows[k'].planId == u[i]
      {
        assert column[k] == u[j];
        var k' :| 0 <= k' < k && column[..k][k'] == u[i];
        assert rows[k'].planId == u[i];
      }
    }
    u
  }

  /** The constructor: the checks run in the order the constructor runs them,
      each refusing exactly the arguments the earlier checks let through and it
      rejects. On success the kept columns are the key columns, the target and
      the attributes, the method is the one named, the index covers every plan
      of the table and the plan ids are listed once each, in order of first
      appearance. */
  function Create(
    meta: Meta,
    target: string,
    samplingMethod: string,
    planAttrs: Option<seq<string>>,
    prodAttrs: Option<seq<string>>): (r: Result<Dataset>)
    ensures r == Err(MissingTarget) <==> target !in meta.columns
    ensures r == Err(UnknownSamplingMethod) <==>
      target in meta.columns && ParseMethod(samplingMethod).None?
    ensures r == Err(MissingPlanAttr) <==>
      && target in meta.columns
      && ParseMethod(samplingMethod).Some?
      && !AllIn(OrDefault(planAttrs, DefaultPlanAttrs), meta.columns)
    ensures r == Err(MissingProdAttr) <==>
      && target in meta.columns
      && ParseMethod(samplingMethod).Some?
      && AllIn(OrDefault(planAttrs, DefaultPlanAttrs), meta.columns)
      && !AllIn(OrDefault(prodAttrs, DefaultProdAttrs), meta.columns)
    ensures r == Err(MissingKeyColumn) <==>
      && target in meta.columns
      && ParseMethod(samplingMethod).Some?
      && AllIn(OrDefault(planAttrs, DefaultPlanAttrs), meta.columns)
      && AllIn(OrDefault(prodAttrs, DefaultProdAttrs), meta.columns)
      && !AllIn(KeyColumns, meta.columns)
    ensures r.Ok? ==>
      && r.value.target == target
      && MethodName(r.value.sampling) == samplingMethod
      && r.value.planAttrs == OrDefault(planAttrs, DefaultPlanAttrs)
      && r.value.prodAttrs == OrDefault(prodAttrs, DefaultProdAttrs)
    ensures r.Ok? ==>
      && target in r.value.columns
      && (forall c :: c in r.value.columns ==> c in meta.columns)
      && (forall c :: c in r.value.columns <==>
            c in KeyColumns || c == target || c in r.value.planAttrs || c in r.value.prodAttrs)
    ensures r.Ok? ==>
      && (forall p :: p in r.value.planIds <==> p in r.value.groups)
      && (forall p :: p in r.value.groups ==> |r.value.groups[p]| > 0)
      && (forall p, x :: p in r.value.groups ==> (x in r.value.groups[p] <==> MetaRow(p, x) in meta.rows))
      && (forall p, x :: p in r.value.groups ==>
            multiset(r.value.groups[p])[x] == multiset(meta.rows)[MetaRow(p, x)])
    ensures r.Ok? ==>
      && r.value.groups.Keys == PlanIdSet(meta.rows)
      && (forall i, j :: 0 <= i < j < |r.value.planIds| ==> r.value.planIds[i] != r.value.planIds[j])
      && (forall i, j, k ::
            0 <= i < j < |r.value.planIds| && 0 <= k < |meta.rows| && meta.rows[k].planId == r.value.planIds[j] ==>
            exists k' :: 0 <= k' < k && meta.rows[k'].planId == r.value.planIds[i])
  {
    if target !in meta.columns then
      Err(MissingTarget)
    else if ParseMethod(samplingMethod).None? then
      Err(UnknownSamplingMethod)
    else
      var plan := OrDefault(planAttrs, DefaultPlanAttrs);
      var prod := OrDefault(prodAttrs, DefaultProdAttrs);
      if !AllIn(plan, meta.columns) then
        Err(MissingPlanAttr)
      else if !AllIn(prod, meta.columns) then
        Err(MissingProdAttr)
      else if !AllIn(KeyColumns, meta.columns) then
        Err(MissingKeyColumn)
      else
        var kept := set c | c in KeyColumns + [target] + plan + prod;
        Ok(Dataset(kept, target, ParseMethod(samplingMethod).value, plan, prod,
                   GroupByPlan(meta.rows), UniquePlanIds(meta.rows)))
  }
}

=== FILE: rows.dfy ===
/** The rows a plan's group is made of. A group is the slice of the metadata
    table that shares one `plan_id`; the sampler only looks at each row's
    index label and at its value in the target column. */
module Rows {
  import opened Ordering

  /** One product row: `id` is the row's index label in the frame passed to
      `sample_prods` (what `drop(label)` removes), `score` its value in the
      target column (a click-through rate or a review count). */
  datatype Row = Row(id: int, score: real)

  /** A row together with the jittered weight column that a weighted draw
      attaches to the group (`plan["weight"]`). */
  datatype WeightedRow = WeightedRow(row: Row, weight: real)

  function Score(r: Row): real { r.score }

  function Id(r: Row): int { r.id }

  function WeightOf(w: WeightedRow): real { w.weight }

  function WeightedId(w: WeightedRow): int { w.row.id }

  /** No two rows of the group share an index label. */
  predicate UniqueIds(s: seq<Row>) {
    DistinctBy(s, Id)
  }

  /** The rows of a weighted frame with the weight column dropped. */
  function Unweighted(ws: seq<WeightedRow>): (rs: seq<Row>)
    ensures |rs| == |ws|
    ensures forall i :: 0 <= i < |ws| ==> rs[i] == ws[i].row
  {
    seq(|ws|, i requires 0 <= i < |ws| => ws[i].row)
  }
}

=== FILE: sample_properties.dfy ===
/** Properties of `sample_prods` that relate several calls, the constructor,
    or the size of the group to the draws it needs. */
module SampleProperties {
  import opened Ordering
  import opened Rows
  import opened PlanDataset
  import opened Sampler

  /** A draw without replacement cannot return more positions than there are
      rows to draw from. */
  lemma {:induction false} DrawNeedsEnoughRows(idx: seq<int>, bound: int)
    requires 0 <= bound
    requires DistinctIndices(idx, bound)
    ensures |idx| <= bound
    decreases |idx|
  {
    if |idx| > 0 {
      var x := idx[|idx| - 1];
      var shifted := seq(|idx| - 1, k requires 0 <= k < |idx| - 1 =>
        if idx[k] > x then idx[k] - 1 else idx[k]);
      assert forall k :: 0 <= k < |shifted| ==> idx[k] != x;
      assert DistinctIndices(shifted, bound - 1);
      DrawNeedsEnoughRows(shifted, bound - 1);
    }
  }

  /** The single weighted sample draws seven rows without replacement, so it
      needs a group of at least seven rows. */
  lemma WeightedSingleNeedsSevenRows(plan: seq<Row>, d: Draws)
    requires DrawsFit(Weighted, plan, 1, d)
    ensures |plan| >= SingleDraws
  {
    DrawNeedsEnoughRows(d.drawn, |plan|);
  }

  /** A random group of `n` rows, when the group is not exactly `n` rows,
      needs a group of more than `n` rows. */
  lemma RandomGroupNeedsMoreRows(plan: seq<Row>, n: int, d: Draws)
    requires n > 1 && |plan| != n
    requires DrawsFit(Random, plan, n, d)
    ensures n < |plan|
  {
    DrawNeedsEnoughRows(d.drawn, |plan|);
  }

  /** A weighted group draws five rows for the positive and `n - 1` others
      without replacement from the rest, so it needs at least five rows and
      more than `n`. */
  lemma WeightedGroupNeedsMoreRows(plan: seq<Row>, n: int, d: Draws)
    requires n > 1 && |plan| != n
    requires DrawsFit(Weighted, plan, n, d)
    ensures |plan| >= PositiveDraws && n < |plan|
  {
    assert GroupFits(plan, n, d);
    GroupFitsFacts(plan, n, d);
    DrawNeedsEnoughRows(d.drawn, |plan|);
    var rest := Remaining(Jitter(plan, d.noise), DrawArgmax(plan, d, PositiveDraws));
    DrawNeedsEnoughRows(d.negatives, |rest|);
  }

  /** When the whole group is returned sorted (`n == -1`, or a group of exactly
      `n > 1` rows), the targets come out in one fixed order: any other sorted
      arrangement of the group, however it breaks ties, has the same targets
      position by position. */
  lemma WholeGroupScoresAreDetermined(ds: Dataset, plan: seq<Row>, n: int, d: Draws, other: seq<Row>)
    requires n == -1 || (n > 1 && |plan| == n)
    requires DrawsFit(ds.sampling, plan, n, d)
    requires SortedBy(other, Score) && multiset(other) == multiset(plan)
    ensures Keys(SampleProds(ds, plan, n, d).rows, Score) == Keys(other, Score)
  {
    var r := SampleProds(ds, plan, n, d);
    SortedPermutationsShareKeys(r.rows, other, Score);
  }

  /** The sequential group's targets are those of the first `min(n, |plan|)`
      rows of ANY arrangement of the group sorted by target: which of several
      tied rows `sort_values` puts first changes the rows, never the targets. */
  lemma SequentialGroupIsSortedPrefix(plan: seq<Row>, n: int, other: seq<Row>)
    requires n > 1
    requires SortedBy(other, Score) && multiset(other) == multiset(plan)
    ensures |other| == |plan|
    ensures Keys(SequentialGroup(plan, n), Score) == Keys(other[..Min(n, |plan|)], Score)
  {
    assert |other| == |multiset(other)| == |plan|;
    var s := SortBy(plan, Score);
    var k := Min(n, |plan|);
    SortedPermutationsShareKeys(s, other, Score);
    assert Keys(s, Score)[..k] == Keys(s[..k], Score);
    assert Keys(other, Score)[..k] == Keys(other[..k], Score);
  }

  /** With a unique top-scoring row, the sequential single sample is that row
      whichever tie pick the sampler made: repeated calls agree. */
  lemma SequentialSingleIsUniqueMax(ds: Dataset, plan: seq<Row>, d: Draws, top: int)
    requires ds.sampling == Sequential
    requires DrawsFit(ds.sampling, plan, 1, d)
    requires 0 <= top < |plan|
    requires forall j :: 0 <= j < |plan| && j != top ==> plan[j].score < plan[top].score
    ensures SampleProds(ds, plan, 1, d) == One(plan[top])
  {
  }

  /** For a dataset the constructor accepted with the random method, the
      target column is always kept, so the re-sort branch is the one taken: a
      random group of `n` rows comes out sorted by target, and its rows are
      distinct rows of the group when the group's labels are. */
  lemma ConstructedRandomGroupIsSorted(
    meta: Meta, target: string, samplingMethod: string,
    planAttrs: Option<seq<string>>, prodAttrs: Option<seq<string>>,
    ds: Dataset, plan: seq<Row>, n: int, d: Draws)
    requires Create(meta, target, samplingMethod, planAttrs, prodAttrs) == Ok(ds)
    requires ds.sampling == Random && n > 1 && |plan| != n
    requires DrawsFit(ds.sampling, plan, n, d)
    ensures SampleProds(ds, plan, n, d).rows == SortBy(Pick(plan, d.drawn), Score)
    ensures |SampleProds(ds, plan, n, d).rows| == n
    ensures SortedBy(SampleProds(ds, plan, n, d).rows, Score)
    ensures UniqueIds(plan) ==> UniqueIds(SampleProds(ds, plan, n, d).rows)
  {
    assert ds.target in ds.columns;
    if UniqueIds(plan) {
      PickKeepsDistinct(plan, d.drawn, Id);
      SortByKeepsDistinct(Pick(plan, d.drawn), Score, Id);
    }
  }

  /** The positive followed by draws from the rows without its label has
      distinct labels when the weighted frame has, and so does its sort. */
  lemma CombineKeepsDistinct(ws: seq<WeightedRow>, pos: WeightedRow, idx: seq<int>)
    requires DistinctBy(ws, WeightedId)
    requires DistinctIndices(idx, |Remaining(ws, pos)|)
    ensures DistinctBy([pos] + Pick(Remaining(ws, pos), idx), WeightedId)
    ensures DistinctBy(Combine(pos, Pick(Remaining(ws, pos), idx)), WeightedId)
  {
    var rest := Remaining(ws, pos);
    FilterKeepsDistinct(ws, (x: WeightedRow) => x.row.id != pos.row.id, WeightedId);
    PickKeepsDistinct(rest, idx, WeightedId);
    var negs := Pick(rest, idx);
    assert forall y :: y in negs ==> y in rest;
    DistinctCons(pos, negs, WeightedId);
    SortByKeepsDistinct([pos] + negs, WeightOf, WeightedId);
  }

  /** Jittering keeps the group's labels. */
  lemma JitterKeepsDistinct(plan: seq<Row>, noise: seq<real>)
    requires NoiseFits(plan, noise)
    requires UniqueIds(plan)
    ensures DistinctBy(Jitter(plan, noise), WeightedId)
  {
  }

  /** Distinct labels survive dropping the weight column. */
  lemma UnweightedKeepsDistinct(t: seq<WeightedRow>)
    requires DistinctBy(t, WeightedId)
    ensures UniqueIds(Unweighted(t))
  {
  }

  /** Dropping the weight column keeps every row. */
  lemma UnweightedKeeps(t: seq<WeightedRow>, w: WeightedRow)
    requires w in t
    ensures w.row in Unweighted(t)
  {
  }

  /** The weighted group of a group with distinct labels has distinct labels
      and holds the positive. */
  lemma WeightedGroupRowsDistinct(plan: seq<Row>, n: int, d: Draws)
    requires n > 1 && GroupFits(plan, n, d)
    requires UniqueIds(plan)
    ensures UniqueIds(WeightedGroupRows(plan, n, d))
    ensures DrawArgmax(plan, d, PositiveDraws).row in WeightedGroupRows(plan, n, d)
  {
    var pos := DrawArgmax(plan, d, PositiveDraws);
    var t := WeightedGroup(plan, n, d);
    GroupFitsFacts(plan, n, d);
    JitterKeepsDistinct(plan, d.noise);
    CombineKeepsDistinct(Jitter(plan, d.noise), pos, d.negatives);
    UnweightedKeepsDistinct(t);
    assert pos in t;
    UnweightedKeeps(t, pos);
  }

  /** The weighted group of `n > 1` rows from a group with distinct labels:
      `n` distinct rows, the positive among them, the weight-sorted frame
      with its weight column dropped. */
  lemma WeightedGroupIsDistinct(ds: Dataset, plan: seq<Row>, n: int, d: Draws)
    requires ds.sampling == Weighted && n > 1 && |plan| != n
    requires DrawsFit(ds.sampling, plan, n, d)
    requires UniqueIds(plan)
    ensures SampleProds(ds, plan, n, d).rows == Unweighted(WeightedGroup(plan, n, d))
    ensures |SampleProds(ds, plan, n, d).rows| == n
    ensures UniqueIds(SampleProds(ds, plan, n, d).rows)
    ensures DrawArgmax(plan, d, PositiveDraws).row in SampleProds(ds, plan, n, d).rows
  {
    assert SampleProds(ds, plan, n, d).rows == WeightedGroupRows(plan, n, d);
    WeightedGroupRowsDistinct(plan, n, d);
  }
}

=== FILE: sampler.dfy ===
/** `sample_prods`: picks one row, `n` rows or the whole group of one plan.
    Every random call is an explicit parameter (`Draws`); each branch states
    what the code does with whatever the library's sampler returned. */
module Sampler {
  import opened Ordering
  import opened Rows
  import opened PlanDataset

  /** Bound of the jitter: `np.random.uniform(...) * 1e-8` lies in [0, 1e-8). */
  const Eps: real := 0.00000001

  /** Rows drawn before choosing the single weighted sample. */
  const SingleDraws: int := 7

  /** Rows drawn before choosing the positive of a weighted group. */
  const PositiveDraws: int := 5

  /** What `sample_prods` returns: nothing (no branch matched), one row (a
      squeezed series) or a frame of rows. */
  datatype Sample = Nothing | One(row: Row) | Many(rows: seq<Row>)

  /** The outcome of every random call of one invocation: `noise` is the
      already scaled jitter of each row, `drawn` the positions the first
      `sample` call returned, `pick` which candidate the final `sample(1)`
      returned, and `negatives` the positions the negative draw returned.
      `pick` is a position of the group for `random`, of the rows tied at the
      top target for `sequential`, and of the drawn rows for `weighted`.
      Each branch reads only the fields it uses. */
  datatype Draws = Draws(noise: seq<real>, drawn: seq<int>, pick: int, negatives: seq<int>)

  function Min(a: int, b: int): int { if a <= b then a else b }

  /** `idx` holds distinct positions of a sequence of length `bound`: what a
      draw without replacement returns. */
  predicate DistinctIndices(idx: seq<int>, bound: int) {
    && (forall k :: 0 <= k < |idx| ==> 0 <= idx[k] < bound)
    && (forall k, l :: 0 <= k < l < |idx| ==> idx[k] != idx[l])
  }

  /** The rows at the drawn positions, in draw order. */
  function Pick<T>(s: seq<T>, idx: seq<int>): (r: seq<T>)
    requires forall k :: 0 <= k < |idx| ==> 0 <= idx[k] < |s|
    ensures |r| == |idx|
    ensures forall k :: 0 <= k < |idx| ==> r[k] == s[idx[k]]
  {
    seq(|idx|, k requires 0 <= k < |idx| => s[idx[k]])
  }

  lemma PickKeepsDistinct<T>(s: seq<T>, idx: seq<int>, f: T -> int)
    requires DistinctIndices(idx, |s|)
    requires DistinctBy(s, f)
    ensures DistinctBy(Pick(s, idx), f)
  {
  }

  /** When a weighted draw of `count` rows without replacement returns at
      all: the library raises on a negative weight (and on weights that sum
      to 0), so no weight is negative; the positions are distinct; and no
      drawn row has weight 0 (a row of probability 0 is never drawn). */
  predicate WeightedDrawFits(weights: seq<real>, idx: seq<int>, count: int) {
    && |idx| == count
    && DistinctIndices(idx, |weights|)
    && (forall i :: 0 <= i < |weights| ==> weights[i] >= 0.0)
    && (forall k :: 0 <= k < |idx| ==> weights[idx[k]] > 0.0)
  }

  /** One jitter value in [0, Eps) per row of the group. */
  predicate NoiseFits(plan: seq<Row>, noise: seq<real>) {
    |noise| == |plan| && forall i :: 0 <= i < |noise| ==> 0.0 <= noise[i] < Eps
  }

  /** The group with its weight column: each row's target plus its jitter. */
  function Jitter(plan: seq<Row>, noise: seq<real>): (ws: seq<WeightedRow>)
    requires NoiseFits(plan, noise)
    ensures |ws| == |plan|
    ensures forall i :: 0 <= i < |plan| ==> ws[i] == WeightedRow(plan[i], plan[i].score + noise[i])
    ensures forall i :: 0 <= i < |plan| ==> plan[i].score <= ws[i].weight < plan[i].score + Eps
  {
    seq(|plan|, i requires 0 <= i < |plan| => WeightedRow(plan[i], plan[i].score + noise[i]))
  }

  /** Position `pick` of the drawn rows is one the keep-max filter
      `prod[prod["weight"] == prod["weight"].max()]` keeps: no drawn row is
      heavier. */
  predicate IsTopDraw(drawn: seq<WeightedRow>, pick: int) {
    && 0 <= pick < |drawn|
    && forall l :: 0 <= l < |drawn| ==> drawn[l].weight <= drawn[pick].weight
  }

  /** The keep-max filter keeps exactly the top draws: a drawn row survives it
      if and only if no drawn row is heavier. So the final `sample(1)` over
      the survivors returns a top draw, and can return any of them. */
  lemma TopDrawIffTie(drawn: seq<WeightedRow>, k: int)
    requires 0 <= k < |drawn|
    ensures drawn[k] in TiesAtMax(drawn, WeightOf) <==> IsTopDraw(drawn, k)
  {
  }

  /** The draws a weighted argmax over `count` drawn rows needs: jitter for
      every row, `count` rows the sampler may return, and the position among
      them of the row the final `sample(1)` returned from the survivors of
      the keep-max filter. */
  predicate ArgmaxFits(plan: seq<Row>, d: Draws, count: int) {
    && NoiseFits(plan, d.noise)
    && count > 0
    && WeightedDrawFits(Keys(Jitter(plan, d.noise), WeightOf), d.drawn, count)
    && IsTopDraw(Pick(Jitter(plan, d.noise), d.drawn), d.pick)
  }

  /** Draw `count` rows weighted by jittered target, keep the heaviest and
      choose among ties: one of the drawn rows, with its jittered weight, and
      none of the drawn rows is heavier. */
  function DrawArgmax(plan: seq<Row>, d: Draws, count: int): (w: WeightedRow)
    requires ArgmaxFits(plan, d, count)
    ensures exists k :: 0 <= k < count && w == WeightedRow(plan[d.drawn[k]], plan[d.drawn[k]].score + d.noise[d.drawn[k]])
    ensures forall l :: 0 <= l < count ==> plan[d.drawn[l]].score + d.noise[d.drawn[l]] <= w.weight
    ensures w.row in plan
  {
    var drawn := Pick(Jitter(plan, d.noise), d.drawn);
    assert drawn[d.pick] == Jitter(plan, d.noise)[d.drawn[d.pick]];
    drawn[d.pick]
  }

  /** A row whose target is below `-1e-8` has a negative weight, on which
      the weighted draw raises: no draws fit, whatever the jitter. */
  lemma NegativeTargetHasNoDraws(plan: seq<Row>, d: Draws, count: int, i: int)
    requires 0 <= i < |plan| && plan[i].score <= -Eps
    ensures !ArgmaxFits(plan, d, count)
  {
    if NoiseFits(plan, d.noise) {
      assert Keys(Jitter(plan, d.noise), WeightOf)[i] < 0.0;
    }
  }

  /** The chosen row is one the keep-max filter keeps, so it is a row the
      final `sample(1)` over the filtered rows can return. */
  lemma DrawArgmaxSurvivesFilter(plan: seq<Row>, d: Draws, count: int)
    requires ArgmaxFits(plan, d, count)
    ensures DrawArgmax(plan, d, count) in TiesAtMax(Pick(Jitter(plan, d.noise), d.drawn), WeightOf)
  {
    TopDrawIffTie(Pick(Jitter(plan, d.noise), d.drawn), d.pick);
  }

  /** The group without the rows carrying the positive's index label
      (`plan.drop(label)`), in group order. */
  function Remaining(ws: seq<WeightedRow>, pos: WeightedRow): (rest: seq<WeightedRow>)
    ensures forall x :: x in rest <==> x in ws && x.row.id != pos.row.id
    ensures forall x :: multiset(rest)[x] == if x.row.id != pos.row.id then multiset(ws)[x] else 0
  {
    Filter(ws, (x: WeightedRow) => x.row.id != pos.row.id)
  }

  /** The inverse weights of the negative draw: the largest remaining weight
      minus each row's own weight, never negative. */
  function InverseWeights(rest: seq<WeightedRow>): (iw: seq<real>)
    requires |rest| > 0
    ensures |iw| == |rest|
    ensures forall i :: 0 <= i < |rest| ==> iw[i] == MaxKey(rest, WeightOf) - rest[i].weight
    ensures forall i :: 0 <= i < |rest| ==> iw[i] >= 0.0
  {
    var m := MaxKey(rest, WeightOf);
    seq(|rest|, i requires 0 <= i < |rest| => m - rest[i].weight)
  }

  /** The draws a weighted group of `n` needs: the positive's argmax over five
      draws, then `n - 1` negatives the inverse-weight draw can return. */
  predicate GroupFits(plan: seq<Row>, n: int, d: Draws) {
    && ArgmaxFits(plan, d, PositiveDraws)
    && var rest := Remaining(Jitter(plan, d.noise), DrawArgmax(plan, d, PositiveDraws));
       && |rest| > 0
       && WeightedDrawFits(InverseWeights(rest), d.negatives, n - 1)
  }

  /** The drawn positions of an argmax are `count` distinct positions of the
      group, and the chosen row is a row of the weighted frame. */
  lemma ArgmaxFitsFacts(plan: seq<Row>, d: Draws, count: int)
    requires ArgmaxFits(plan, d, count)
    ensures |d.drawn| == count && DistinctIndices(d.drawn, |plan|)
    ensures DrawArgmax(plan, d, count) in Jitter(plan, d.noise)
  {
  }

  /** Dropping the positive's label removes at least the positive. */
  lemma RemainingIsSmaller(ws: seq<WeightedRow>, pos: WeightedRow)
    requires pos in ws
    ensures |Remaining(ws, pos)| < |ws|
  {
  }

  /** The shape of the draws of a weighted group: five distinct positions
      of the group for the positive, and `n - 1` distinct positions of the
      rest, which is shorter than the group since the positive is gone. */
  lemma GroupFitsFacts(plan: seq<Row>, n: int, d: Draws)
    requires GroupFits(plan, n, d)
    ensures |d.drawn| == PositiveDraws && DistinctIndices(d.drawn, |plan|)
    ensures |Remaining(Jitter(plan, d.noise), DrawArgmax(plan, d, PositiveDraws))| < |plan|
    ensures |d.negatives| == n - 1
    ensures DistinctIndices(d.negatives, |Remaining(Jitter(plan, d.noise), DrawArgmax(plan, d, PositiveDraws))|)
  {
    ArgmaxFitsFacts(plan, d, PositiveDraws);
    RemainingIsSmaller(Jitter(plan, d.noise), DrawArgmax(plan, d, PositiveDraws));
  }

  /** Every row the inverse-weight draw returns is a remaining row strictly
      lighter than the heaviest remaining row. */
  lemma NegativesAreLighter(rest: seq<WeightedRow>, idx: seq<int>, count: int)
    requires |rest| > 0
    requires WeightedDrawFits(InverseWeights(rest), idx, count)
    ensures forall x :: x in Pick(rest, idx) ==> x in rest && x.weight < MaxKey(rest, WeightOf)
  {
  }

  /** The negatives of a weighted group: `n - 1` rows of the group, none with
      the positive's label, each strictly lighter than some other row that is
      not the positive (the heaviest such row is never a negative). */
  function Negatives(plan: seq<Row>, n: int, d: Draws): (negs: seq<WeightedRow>)
    requires GroupFits(plan, n, d)
    ensures |negs| == n - 1
    ensures forall x :: x in negs ==> x.row in plan
    ensures var ws := Jitter(plan, d.noise);
            var pos := DrawArgmax(plan, d, PositiveDraws);
            forall x :: x in negs ==>
              && x in ws
              && x.row.id != pos.row.id
              && exists y :: y in ws && y.row.id != pos.row.id && x.weight < y.weight
  {
    var ws := Jitter(plan, d.noise);
    var pos := DrawArgmax(plan, d, PositiveDraws);
    NegativesOutweighed(ws, pos, d.negatives, n - 1);
    JitterRowsIn(plan, d.noise);
    Pick(Remaining(ws, pos), d.negatives)
  }

  /** Each drawn negative is a row without the positive's label, and some
      other such row is heavier. */
  lemma NegativesOutweighed(ws: seq<WeightedRow>, pos: WeightedRow, idx: seq<int>, count: int)
    requires |Remaining(ws, pos)| > 0
    requires WeightedDrawFits(InverseWeights(Remaining(ws, pos)), idx, count)
    ensures forall x :: x in Pick(Remaining(ws, pos), idx) ==>
      && x in ws
      && x.row.id != pos.row.id
      && exists y :: y in ws && y.row.id != pos.row.id && x.weight < y.weight
  {
    var rest := Remaining(ws, pos);
    NegativesAreLighter(rest, idx, count);
    var heaviest :| 0 <= heaviest < |rest| && rest[heaviest].weight == MaxKey(rest, WeightOf);
    assert rest[heaviest] in rest;
  }

  /** Adding the weight column adds no row. */
  lemma JitterRowsIn(plan: seq<Row>, noise: seq<real>)
    requires NoiseFits(plan, noise)
    ensures forall w :: w in Jitter(plan, noise) ==> w.row in plan
  {
    var ws := Jitter(plan, noise);
    forall w | w in ws
      ensures w.row in plan
    {
      var i :| 0 <= i < |ws| && ws[i] == w;
      assert w.row == plan[i];
    }
  }

  /** `pd.concat([pos, negs])` sorted by weight, non-increasing. */
  function Combine(pos: WeightedRow, negs: seq<WeightedRow>): (t: seq<WeightedRow>)
    ensures |t| == |negs| + 1
    ensures SortedBy(t, WeightOf)
    ensures multiset(t) == multiset{pos} + multiset(negs)
    ensures forall w :: w in t <==> w == pos || w in negs
  {
    SortBy([pos] + negs, WeightOf)
  }

  /** The weighted group before its weight column is dropped: the positive and
      the negatives, ordered non-increasing by weight. */
  function WeightedGroup(plan: seq<Row>, n: int, d: Draws): (t: seq<WeightedRow>)
    requires n > 1 && GroupFits(plan, n, d)
    ensures |t| == n
    ensures SortedBy(t, WeightOf)
    ensures multiset(t) == multiset{DrawArgmax(plan, d, PositiveDraws)} + multiset(Negatives(plan, n, d))
    ensures forall w :: w in t ==> w.row in plan
  {
    Combine(DrawArgmax(plan, d, PositiveDraws), Negatives(plan, n, d))
  }

  lemma UnweightedRowsIn(t: seq<WeightedRow>, plan: seq<Row>)
    requires forall w :: w in t ==> w.row in plan
    ensures forall x :: x in Unweighted(t) ==> x in plan
  {
  }

  /** The weighted group as returned, with the weight column dropped. */
  function WeightedGroupRows(plan: seq<Row>, n: int, d: Draws): (rows: seq<Row>)
    requires n > 1 && GroupFits(plan, n, d)
    ensures |rows| == n
    ensures forall x :: x in rows ==> x in plan
  {
    var t := WeightedGroup(plan, n, d);
    UnweightedRowsIn(t, plan);
    Unweighted(t)
  }

  /** The random group: the drawn rows, re-sorted by target when the target
      column is present and left in draw order otherwise. */
  function RandomGroup(ds: Dataset, plan: seq<Row>, drawn: seq<int>): (r: seq<Row>)
    requires DistinctIndices(drawn, |plan|)
    ensures |r| == |drawn|
    ensures multiset(r) == multiset(Pick(plan, drawn))
    ensures ds.target in ds.columns ==> SortedBy(r, Score)
    ensures ds.target !in ds.columns ==> r == Pick(plan, drawn)
    ensures forall x :: x in r ==> x in plan
  {
    var picked := Pick(plan, drawn);
    assert forall x :: x in picked ==> x in plan;
    if ds.target in ds.columns then SortBy(picked, Score) else picked
  }

  /** Cutting a sequence at `k` splits its multiset in two. */
  lemma SplitAt<T>(s: seq<T>, k: int)
    requires 0 <= k <= |s|
    ensures multiset(s[..k]) <= multiset(s)
    ensures multiset(s) - multiset(s[..k]) == multiset(s[k..])
  {
    assert s == s[..k] + s[k..];
    var m, l, r := multiset(s), multiset(s[..k]), multiset(s[k..]);
    assert forall y :: m[y] == l[y] + r[y];
  }

  /** A prefix of a sequence sorted by target holds its highest targets:
      every row outside the prefix scores no higher than any row in it. */
  lemma PrefixIsTop(s: seq<Row>, k: int)
    requires SortedBy(s, Score)
    requires 0 <= k <= |s|
    ensures SortedBy(s[..k], Score)
    ensures multiset(s[..k]) <= multiset(s)
    ensures forall x, y :: x in s[..k] && y in multiset(s) - multiset(s[..k]) ==> y.score <= x.score
  {
    SplitAt(s, k);
    forall x, y | x in s[..k] && y in s[k..]
      ensures y.score <= x.score
    {
      var i :| 0 <= i < k && s[..k][i] == x;
      var j :| 0 <= j < |s[k..]| && s[k..][j] == y;
      assert s[i] == x && s[k + j] == y;
    }
  }

  /** The sequential group: the top `min(n, |plan|)` rows by target, in order.
      Every row left out scores no higher than every row kept. */
  function SequentialGroup(plan: seq<Row>, n: int): (r: seq<Row>)
    requires n > 1
    ensures |r| == Min(n, |plan|)
    ensures SortedBy(r, Score)
    ensures multiset(r) <= multiset(plan)
    ensures forall x, y :: x in r && y in multiset(plan) - multiset(r) ==> y.score <= x.score
    ensures forall x :: x in r ==> x in plan
  {
    var s := SortBy(plan, Score);
    var k := Min(n, |plan|);
    PrefixIsTop(s, k);
    assert forall x :: x in s[..k] ==> x in s;
    s[..k]
  }

  /** The draws one call needs, by branch; branches without randomness need none. */
  predicate DrawsFit(m: Method, plan: seq<Row>, n: int, d: Draws) {
    if n == 1 then
      match m
      case Random => 0 <= d.pick < |plan|
      case Weighted => ArgmaxFits(plan, d, SingleDraws)
      case Sequential => |plan| > 0 && 0 <= d.pick < |TiesAtMax(plan, Score)|
    else if n > 1 && |plan| != n then
      match m
      case Random => |d.drawn| == n && DistinctIndices(d.drawn, |plan|)
      case Weighted => GroupFits(plan, n, d)
      case Sequential => true
    else
      true
  }

  /** The `n == 1` branch: one row of the group, chosen by the method. */
  function SampleOne(m: Method, plan: seq<Row>, d: Draws): (r: Row)
    requires DrawsFit(m, plan, 1, d)
    ensures r in plan
    ensures m == Random ==> r == plan[d.pick]
    ensures m == Sequential ==> forall i :: 0 <= i < |plan| ==> plan[i].score <= r.score
    ensures m == Weighted ==>
      exists k :: 0 <= k < SingleDraws && r == plan[d.drawn[k]] &&
        forall l :: 0 <= l < SingleDraws ==>
          plan[d.drawn[l]].score + d.noise[d.drawn[l]] <= plan[d.drawn[k]].score + d.noise[d.drawn[k]]
  {
    match m
    case Random => plan[d.pick]
    case Weighted => DrawArgmax(plan, d, SingleDraws).row
    case Sequential =>
      var ties := TiesAtMax(plan, Score);
      assert ties[d.pick] in ties;
      ties[d.pick]
  }

  /** The `n > 1` branch: a group of exactly `n` rows is returned whole and
      sorted whatever the method; otherwise the method picks the rows. */
  function SampleGroup(ds: Dataset, plan: seq<Row>, n: int, d: Draws): (rows: seq<Row>)
    requires n > 1 && DrawsFit(ds.sampling, plan, n, d)
    ensures forall x :: x in rows ==> x in plan
    ensures |plan| == n ==> SortedBy(rows, Score) && multiset(rows) == multiset(plan)
    ensures |plan| != n ==> |rows| == (if ds.sampling == Sequential then Min(n, |plan|) else n)
  {
    if |plan| == n then
      SortBy(plan, Score)
    else
      match ds.sampling
      case Random =>
        RandomGroup(ds, plan, d.drawn)
      case Weighted =>
        WeightedGroupRows(plan, n, d)
      case Sequential =>
        SequentialGroup(plan, n)
  }

  /** `sample_prods(plan, n)` of a dataset whose method is `ds.sampling`. */
  function SampleProds(ds: Dataset, plan: seq<Row>, n: int, d: Draws): (r: Sample)
    requires DrawsFit(ds.sampling, plan, n, d)
    ensures r.Nothing? <==> n == 0 || n < -1
    ensures r.One? <==> n == 1
    ensures r.One? ==> r.row in plan
    ensures r.Many? ==> forall x :: x in r.rows ==> x in plan
    ensures n == -1 || (n > 1 && |plan| == n) ==>
      r.Many? && SortedBy(r.rows, Score) && multiset(r.rows) == multiset(plan)
    ensures n > 1 && |plan| != n ==>
      r.Many? && |r.rows| == (if ds.sampling == Sequential then Min(n, |plan|) else n)
  {
    if n == -1 then
      Many(SortBy(plan, Score))
    else if n == 1 then
      One(SampleOne(ds.sampling, plan, d))
    else if n > 1 then
      Many(SampleGroup(ds, plan, n, d))
    else
      Nothing
  }
}
